=== FILE: README.md ===
# Stock-signal ingestion and dashboard filters, modelled in Dafny

The repository harvests rows of trend signals (`Symbols`, `Multi_Months_View`,
`Multi_Weeks_View`, `Weekly_View`, `Day_View`) from a Google Sheet every hour,
stamps them with the fetch date and time, writes a CSV backup and inserts them
into MySQL; a Streamlit dashboard filters the accumulated rows by symbol, date
range and per-column status, and colours the trend cells.

This project models the pure logic of both programs:

- `normalizer.dfy` (`Normalizer`): the row loop of `fetch_all_google_sheets_data`
  — skip the first line, keep rows with at least five cells whose first cell is
  neither blank nor the header label `SYMBOLS` (any case, surrounding whitespace
  ignored), cut them to five cells and stamp each with the one date and time read
  before the loop. Both as a function and as the loop itself (`NormalizeLoop`).
- `backup.dfy` (`Backup`): the backup file name `stock_data_backup_DD-MM-YY_HH.csv`
  and its parser.
- `scheduler.dfy` (`Scheduler`): one cycle of `schedule_data_fetching` as the
  sequence of sink attempts and log lines it produces, and a finite run of cycles.
- `dashboard.dfy` (`Dashboard`): `filter_data`, the fallback to every symbol,
  `apply_filters`, the `filter_conditions` built from the multiselects,
  `color_coding`, the displayed columns, the cleaning of the symbol selection and
  the start/end date check.
- `records.dfy` (`Records`): dates, clock readings, the four view columns,
  ingested records (`Record`) and dashboard rows (`Entry`).
- `text.dfy` (`Text`): Python's `str.strip()`, `str.upper()` (as far as a
  comparison with `"SYMBOLS"` can tell) and two-digit `strftime` fields.
- `seqs.dfy` (`Seqs`): pandas-style boolean-mask selection, subsequences, `unique()`.
- `wrappers.dfy` (`Wrappers`): `Option`.

Behaviour of the code worth knowing before reading the model:

- Rows with fewer than five cells are dropped, not padded. The guard
  `len(row) >= len(expected_headers)` runs before the padding loop, so the loop
  never appends anything (`Normalizer.PaddingNeverRuns`, `Normalizer.ShortRowDropped`).
- The backup name has no `_1`, `_2`, … suffix. A second backup within the same
  hour (same day, month, two-digit year and hour) gets the same name and replaces
  the first file (`Backup.SameNameIffSameHour`).
- The first line of the sheet is always dropped, whatever it holds. A sheet whose
  first line is `AAPL, Bullish, …` therefore yields no `AAPL` record
  (`Normalizer.ThreeLineExample`).
- The external sheet read and the CSV write are parameters of the cycle. A failed
  sheet read is `None`. A failed backup is `None`.
- `insert_to_mysql` is modelled step by step (`Scheduler.InsertToMysql`). It does
  not always return `False` on failure: some failures raise out of it. Such an
  exception ends `schedule_data_fetching`, and `main` logs it and returns. So the
  hourly loop stops at the first cycle whose insert raises (see "## Findings").

Dates in the dashboard are already parsed: `Some(date)`, or `None` where pandas
produced NaT. A missing trend cell in the dashboard's CSV is the empty string.

## Model

| member | source | states |
|---|---|---|
| `Text.Strip` | src/fetch_gsheet_data.py:175 | the result is the cell with a whitespace-only prefix and a whitespace-only suffix removed, starting at the first non-whitespace character; it is empty exactly when every character is whitespace, and otherwise neither starts nor ends with whitespace |
| `Text.UpperIsSymbols` | src/fetch_gsheet_data.py:175 | `upper()` gives "SYMBOLS" exactly for seven-character strings spelling it in any mix of cases, where a long s (U+017F) may stand for either S |
| `Text.TwoDigits` | src/fetch_gsheet_data.py:45 | a field below 100 (the `%d`, `%m`, `%y`, `%H` fields here, and `%H:%M:%S` at line 171) is written as two decimal digits, zero-padded, whose value reads back as the field |
| `Text.StripIdempotent` | main.py:144 | stripping twice is stripping once |
| `Records.TimeOfDay` | src/fetch_gsheet_data.py:171 | the time text is `HH:MM:SS`, eight characters, whose fields read back as the clock's hour, minute and second |
| `Records.StampOf` | src/fetch_gsheet_data.py:169-171 | the stamp's date is the clock's calendar day and its time is `HH:MM:SS`, eight characters with `:` at positions 2 and 5, whose fields read back as the clock's hour, minute and second |
| `Normalizer.PadTo` | src/fetch_gsheet_data.py:180-181 | padding keeps the given cells as a prefix, reaches the requested width, and adds only empty strings |
| `Normalizer.PaddingNeverRuns` | src/fetch_gsheet_data.py:175-181 | for a row that passes the guard, padding its first five cells adds nothing |
| `Normalizer.ToRecord` | src/fetch_gsheet_data.py:177-183 | a kept row becomes exactly seven fields: its first five cells unchanged (the symbol unstripped), then the date, then the time |
| `Normalizer.NormalizeBody` | src/fetch_gsheet_data.py:174-184 | no more records than input rows, and every record carries the one date and time of the call |
| `Normalizer.Normalize` | src/fetch_gsheet_data.py:174 | an empty sheet gives nothing; otherwise at most one record per line after the first; every record carries the call's stamp |
| `Normalizer.FetchAll` | src/fetch_gsheet_data.py:110-197 | the fetch returns `None` exactly when the sheet could not be read; an empty sheet gives no rows; otherwise the rows are exactly the kept lines after the first, converted in sheet order, each carrying the date and time of one clock reading |
| `Normalizer.KeptIndices` | src/fetch_gsheet_data.py:175 | the kept positions are strictly increasing, each names a row passing the guard, and every row passing the guard is listed |
| `Normalizer.NormalizeSelects` | src/fetch_gsheet_data.py:174-184 | the output is the kept rows in sheet order: one record per kept position, each the conversion of that row, nothing else |
| `Normalizer.NormalizeAppend` | src/fetch_gsheet_data.py:174-184 | normalising two blocks of lines one after the other equals normalising them together |
| `Normalizer.HeaderLabelIff` | src/fetch_gsheet_data.py:175 | a first cell is the repeated header exactly when, once stripped, it is seven characters spelling "SYMBOLS" in any mix of cases, with a long s allowed for either S |
| `Normalizer.KeptSymbolsAreReal` | src/fetch_gsheet_data.py:175 | no record has a blank symbol or a symbol equal to the header label |
| `Normalizer.HeaderRowIgnored` | src/fetch_gsheet_data.py:174 | sheets differing only in their first line give the same records |
| `Normalizer.ShortRowDropped` | src/fetch_gsheet_data.py:175-181 | a row with fewer than five cells contributes no record wherever it stands |
| `Normalizer.ThreeLineExample` | src/fetch_gsheet_data.py:168-187 | for a three-line sheet, the first line is dropped and the blank-symbol line is skipped; only the `MSFT` line remains, stamped |
| `Normalizer.NormalizeLoop` | src/fetch_gsheet_data.py:168-184 | the loop, with its padding step, builds exactly the normalised records |
| `Backup.NameOf` | src/fetch_gsheet_data.py:45-48 | the name is 33 characters: the `stock_data_backup_` prefix, two-digit day, month and year separated by `-`, `_`, two-digit hour, `.csv` |
| `Backup.BackupName` | src/fetch_gsheet_data.py:45-48 | the name has the fixed prefix and extension and parses back to the clock's day, month, year modulo 100 and hour |
| `Backup.ParseBackupName` | src/fetch_gsheet_data.py:45-48 | whatever parses is exactly the name written for the parsed fields |
| `Backup.ParseNameOf` | src/fetch_gsheet_data.py:45-48 | the name written for any fields parses back to those fields |
| `Backup.SameNameIffSameHour` | src/fetch_gsheet_data.py:45-51 | two backups share a file name exactly when day, month, two-digit year and hour agree, so the later overwrites the earlier |
| `Backup.BackupNameExample` | src/fetch_gsheet_data.py:45-48 | 1 June 2024 at 09:00 gives `stock_data_backup_01-06-24_09.csv` |
| `Scheduler.InsertToMysql` | src/fetch_gsheet_data.py:58-108 | the insert returns True exactly when a connection, the cursor and the batch insert all succeed; it raises exactly when connected and either a non-MySQL exception occurs, or the rollback raises after a MySQL error, or the cursor failed with a MySQL error while the connection is still up at the `finally` |
| `Scheduler.SafeInsert` | src/fetch_gsheet_data.py:58-108 | the corrected insert never raises and succeeds exactly when the insert as written succeeds |
| `Scheduler.Cycle` | src/fetch_gsheet_data.py:203-222 | backup and insert are each attempted exactly once when the fetch returned rows and never otherwise, backup first, the insert whatever the backup gave; otherwise "no data" is logged; the insert message matches its outcome; the cycle ends with the single wait message unless the insert raised, in which case it ends at the insert attempt with no wait; nothing else is logged, in this order: a cycle without data is the "no data" line and the wait; one with data is the backup attempt, the backup line if any, the insert attempt, then the insert report and the wait unless the insert raised; `main`'s error line is never part of a cycle |
| `Scheduler.RunCycle` | src/fetch_gsheet_data.py:203-209 | the backup is attempted exactly when the sheet was read and normalises to at least one record; the completed-backup line names the hour's file exactly when the backup was attempted and written |
| `Scheduler.HeaderOnlySheetFetchesNothing` | src/fetch_gsheet_data.py:203-219 | a sheet holding only its header line leads to no backup, no insert and the "no data" line |
| `Scheduler.Schedule` | src/fetch_gsheet_data.py:199-231 | the loop as written logs the wait once for each cycle run before the first cycle whose insert raises |
| `Scheduler.ScheduleWith` | src/fetch_gsheet_data.py:199-231 | for any insert behaviour, the wait is logged once per completed cycle, and `main`'s error line appears once exactly when some cycle raised and ended the loop |
| `Scheduler.CompletedCyclesAll` | src/fetch_gsheet_data.py:199-231 | the cycles completed never exceed those given, and all of them complete exactly when no cycle's insert raises |
| `Scheduler.ScheduleWaitsOncePerCycle` | src/fetch_gsheet_data.py:199-223 | as long as no insert raises, the loop reaches the hourly wait once per cycle, whatever else failed: an unreadable or empty sheet, a failed backup, an insert returning False |
| `Scheduler.CursorFaultEndsLoop` | src/fetch_gsheet_data.py:97-107 | when the cursor fails with a MySQL error and the connection stays up, the insert raises; the first cycle with data then ends the program before any wait, and the last line is `main`'s error |
| `Scheduler.SafeSchedule` | src/fetch_gsheet_data.py:199-223 | with the corrected insert, the wait is logged once per completed cycle |
| `Scheduler.SafeScheduleWaitsOncePerCycle` | src/fetch_gsheet_data.py:199-223 | with the corrected insert, every cycle reaches the hourly wait, for any sequence of cycles |
| `Dashboard.FilterData` | main.py:55-58 | the two masks in turn equal one selection by symbol listed and date in the inclusive range; the result keeps data order and holds each selected row as many times as the data does and no other row; no row with an unparsed date survives |
| `Dashboard.SymbolsOf` | main.py:87 | the symbols offered are exactly those of some row |
| `Seqs.Unique` | main.py:143 | `unique()` (here and at line 87) holds each value of the column exactly once: every value present, no value twice |
| `Dashboard.PrepareSelection` | main.py:76-88 | the shown rows keep data order; each row appears as many times as in the data when its date is in range and either no symbol was chosen or its symbol was, and not at all otherwise |
| `Dashboard.EmptySelectionFiltersByDateOnly` | main.py:84-87 | with no symbol chosen, the rows shown are exactly those in the date range |
| `Dashboard.CleanSymbols` | main.py:144 | no more names than given; each is non-empty and already stripped; a name appears exactly when it is the non-empty stripped form of a given one |
| `Dashboard.CleanSymbolsIdempotent` | main.py:144 | cleaning a cleaned selection changes nothing |
| `Dashboard.PaddedSymbolNeverSelected` | main.py:144 | once some symbol is chosen, a data row whose symbol starts with whitespace is never shown |
| `Dashboard.ClampDates` | main.py:155-157 | afterwards start is not after end and the end date is untouched; the error shows exactly when start was after end, and then start is set to end; an ordered pair is kept as is |
| `Dashboard.ClampDatesIdempotent` | main.py:155-157 | checking a checked range again is silent and changes nothing |
| `Dashboard.ViewColumnsFor` | main.py:95 | the view columns are never empty: the chosen ones as chosen, or all four in sheet order (`Multi_Months_View`, `Multi_Weeks_View`, `Weekly_View`, `Day_View`) when none is chosen |
| `Dashboard.DisplayColumns` | main.py:94-96 | the table shows `Symbols`, then the view columns in order, then `date` and `time` |
| `Dashboard.BuildConditions` | main.py:104-113 | a column has a condition exactly when it is listed and its selection lacks "All"; the condition is that selection |
| `Dashboard.ConstrainedIffSelected` | main.py:71 | a column actually filters exactly when it is listed and its selection lacks "All" and is non-empty |
| `Dashboard.ApplyFilters` | main.py:69-74 | the column-by-column filtering equals one selection by all listed, non-empty conditions together |
| `Dashboard.ApplyFiltersSelects` | main.py:69-74 | the result keeps row order and holds each row whose value in every constrained listed column is allowed, as many times as the input does, and no other row |
| `Dashboard.ApplyFiltersIdempotent` | main.py:69-74 | filtering the filtered rows again changes nothing |
| `Dashboard.ApplyFiltersUnconstrained` | main.py:69-74 | when no listed column has a non-empty condition the rows are unchanged |
| `Dashboard.ApplyFiltersIgnoresUnlisted` | main.py:69-74 | conditions that agree on the listed columns give the same result, so conditions on other columns are ignored |
| `Dashboard.ColorCoding` | main.py:60-67 | exactly Bullish, Bullish Sideways, Bearish Sideways and Bearish get a style, each its fixed one; every other value, "" included, gets "" |
| `Dashboard.StatusOptionsColored` | main.py:60-67 | every selectable status other than "All" has a style of its own, distinct from the others; "All" and "" have none |
| `Seqs.Filter` | main.py:56-57 | a mask selection never grows; each element that passes occurs as often as in the input, and every other element not at all |
| `Seqs.FilterIsSubsequence` | main.py:56-57 | a mask selection keeps the original order |

## Left out

- Google Sheets access (credentials, `gspread`, opening the sheet, reading its values) is a foreign network call; the model takes the read as `Option<Grid>`, `None` for every failure path including import errors.
- MySQL (connect, `cursor()`, `executemany`, commit, rollback) is a foreign library; how each of those steps of one insert ends is an `InsertRun` parameter. All-or-nothing visibility is the database's guarantee, not this code's.
- Scheduler.InsertToMysql: `create_mysql_connection` catches only MySQL errors, so another exception while connecting would also raise out of the insert; the model folds every connection failure into "no connection", which returns False.
- Scheduler.InsertToMysql: assumes that `connection.is_connected()`, `cursor.close()` and `connection.close()` in the `finally` block (src/fetch_gsheet_data.py:105-107) never raise on their own; the one failure modelled there is `cursor.close()` on a never-assigned cursor. If one of those calls did raise, the exception would leave `insert_to_mysql`, even after a successful insert, and end the loop.
- Exceptions out of the sheet read and the backup are not modelled as ending the loop: both functions catch every `Exception` and return `None`.
- The file system (`os.makedirs`, `to_csv`, the fixed backup directory): only the base name of the backup file is modelled.
- `datetime.now()` is a `Clock` parameter. The fetch and the backup read the clock separately, so `RunCycle` takes two readings. `time.sleep(3600)` and the unbounded `while True` are modelled as a finite sequence of cycles.
- Log lines printed inside `backup_to_csv`, `insert_to_mysql`, `create_mysql_connection` and `fetch_all_google_sheets_data` are not modelled; only the lines `schedule_data_fetching` prints itself are.
- Streamlit rendering, CSS, `st.cache_data`, session state, the quick-insight counts and the widgets themselves are not modelled; widget values are parameters. The date inputs' 2024 minimum and maximum are widget constraints and are not modelled.
- CSV reading and `pd.to_datetime` parsing: dates arrive parsed as `Option<Date>`. A missing cell is `""`, which no status filter can select, as with pandas' NaN.
- `sort_values(by='date')`: pandas' default sort is not stable, and where missing values go is library-defined.
- Projecting rows onto the displayed columns is not modelled; it changes which columns are shown, not which rows survive.
- Text.UpperChar: maps only ASCII letters, U+017F and U+0131. No other character's upper case can make the stripped cell equal "SYMBOLS": it is the character itself (for ASCII, never a lower-case letter), or a non-ASCII character, or expands to several characters that include a non-ASCII one or spell a sequence such as "SS", "ST", "FF", "FFI" or "FL" that never occurs inside "SYMBOLS". So the header test is exact (`Normalizer.HeaderLabelIff` spells out which cells it matches).
- Dashboard.CleanSymbols: a symbol offered by `unique()` (main.py:143) can be NaN when the CSV has a row without a symbol; choosing it makes `.strip()` (main.py:144) raise `AttributeError` and the page fail. The model has no NaN symbol: a missing symbol is `""`, which cleaning silently drops.

## Findings

| source | as written | input that shows it | evidently intended | confidence | as-written member | corrected member |
|---|---|---|---|---|---|---|
| src/fetch_gsheet_data.py:71-107 | `cursor` is assigned inside the `try`; when `connection.cursor()` raises a MySQL `Error`, the handler returns False but the `finally` block calls `cursor.close()` on the unassigned name whenever the connection is still up | a cycle with data in which `connection.cursor()` fails with a MySQL error and the connection stays connected: `UnboundLocalError` escapes `insert_to_mysql` and `schedule_data_fetching`; `main` logs it and the hourly loop ends for good | an insert failure is reported as False and the loop goes on to the next hour | not executed | `Scheduler.CursorFaultEndsLoop` | `Scheduler.SafeScheduleWaitsOncePerCycle` |

=== FILE: backup.dfy ===
/** The file name `backup_to_csv` gives a snapshot:
    `stock_data_backup_<DD-MM-YY>_<HH>.csv`, from the clock at the time of
    the backup. Nothing is appended when the name is already taken, so two
    backups in the same hour write the same file. */
module Backup {
  import opened Wrappers
  import opened Text
  import opened Records

  const Prefix: string := "stock_data_backup_"
  const Extension: string := ".csv"

  /** What of the clock reaches the name: `%d`, `%m`, `%y` and `%H`. */
  datatype Key = Key(day: int, month: int, shortYear: int, hour: int) {
    predicate Valid() {
      0 <= day < 100 && 0 <= month < 100 && 0 <= shortYear < 100 && 0 <= hour < 100
    }
  }

  function KeyOf(c: Clock): (k: Key)
    requires c.Valid()
    ensures k.Valid()
  {
    Key(c.day, c.month, c.year % 100, c.hour)
  }

  /** The name written for `k`. */
  function NameOf(k: Key): (r: string)
    requires k.Valid()
    ensures |r| == 33
    ensures r[..18] == Prefix && r[29..] == Extension
    ensures r[20] == '-' && r[23] == '-' && r[26] == '_'
    ensures r[18..20] == TwoDigits(k.day) && r[21..23] == TwoDigits(k.month)
    ensures r[24..26] == TwoDigits(k.shortYear) && r[27..29] == TwoDigits(k.hour)
  {
    Prefix + TwoDigits(k.day) + "-" + TwoDigits(k.month) + "-" + TwoDigits(k.shortYear)
      + "_" + TwoDigits(k.hour) + Extension
  }

  /** `f"stock_data_backup_{datetime.now().strftime('%d-%m-%y_%H')}.csv"`. */
  function BackupName(now: Clock): (r: string)
    requires now.Valid()
    ensures |r| == 33 && r[..18] == Prefix && r[29..] == Extension
    ensures ParseBackupName(r) == Some(KeyOf(now))
  {
    ParseNameOf(KeyOf(now));
    NameOf(KeyOf(now))
  }

  /** Reads the day, month, short year and hour back out of a snapshot name. */
  function ParseBackupName(name: string): (r: Option<Key>)
    ensures r.Some? ==> r.value.Valid() && NameOf(r.value) == name
  {
    if |name| == 33 && name[..18] == Prefix && name[29..] == Extension
       && name[20] == '-' && name[23] == '-' && name[26] == '_'
    then
      match (ParseTwoDigits(name[18..20]), ParseTwoDigits(name[21..23]),
             ParseTwoDigits(name[24..26]), ParseTwoDigits(name[27..29]))
      case (Some(d), Some(m), Some(y), Some(h)) =>
        var k := Key(d, m, y, h);
        assert NameOf(k) == name by {
          var n := NameOf(k);
          assert n[..18] == name[..18] && n[18..20] == name[18..20] && n[20] == name[20];
          assert n[21..23] == name[21..23] && n[23] == name[23] && n[24..26] == name[24..26];
          assert n[26] == name[26] && n[27..29] == name[27..29] && n[29..] == name[29..];
          assert forall i :: 0 <= i < 33 ==> n[i] == name[i] by {
            forall i | 0 <= i < 33 ensures n[i] == name[i] {
              if i < 18 { assert n[i] == n[..18][i]; assert name[i] == name[..18][i]; }
              else if i < 20 { assert n[i] == n[18..20][i - 18]; assert name[i] == name[18..20][i - 18]; }
              else if i == 20 { }
              else if i < 23 { assert n[i] == n[21..23][i - 21]; assert name[i] == name[21..23][i - 21]; }
              else if i == 23 { }
              else if i < 26 { assert n[i] == n[24..26][i - 24]; assert name[i] == name[24..26][i - 24]; }
              else if i == 26 { }
              else if i < 29 { assert n[i] == n[27..29][i - 27]; assert name[i] == name[27..29][i - 27]; }
              else { assert n[i] == n[29..][i - 29]; assert name[i] == name[29..][i - 29]; }
            }
          }
        }
        Some(k)
      case _ => None
    else None
  }

  lemma ParseNameOf(k: Key)
    requires k.Valid()
    ensures ParseBackupName(NameOf(k)) == Some(k)
  {
  }

  /** Two backups get the same file name exactly when they fall in the same
      hour of the same day, month and two-digit year; the later one then
      replaces the earlier file. */
  lemma SameNameIffSameHour(a: Clock, b: Clock)
    requires a.Valid() && b.Valid()
    ensures BackupName(a) == BackupName(b) <==>
              a.day == b.day && a.month == b.month && a.year % 100 == b.year % 100 && a.hour == b.hour
  {
  }

  /** A backup taken at 09:xx on 1 June 2024. */
  lemma BackupNameExample()
    ensures BackupName(Clock(2024, 6, 1, 9, 0, 0)) == "stock_data_backup_01-06-24_09.csv"
  {
  }
}

=== FILE: dashboard.dfy ===
/** The row selection behind the Streamlit dashboard: the symbol and date
    filter, the fallback to every symbol, the per-column status filters
    built from the sidebar multiselects, the colour table, the displayed
    columns, the cleaning of the symbol selection and the start/end clamp.
    Rendering is not modelled; the widgets' current values are parameters. */
module Dashboard {
  import opened Wrappers
  import opened Text
  import opened Seqs
  import opened Records

  // ---------------------------------------------------------------------
  // Symbol and date filter

  /** `(date >= start) & (date <= end)`; a NaT date fails both comparisons. */
  predicate InRange(d: Option<Date>, start: Date, end: Date) {
    d.Some? && DateLe(start, d.value) && DateLe(d.value, end)
  }

  /** `data['Symbols'].isin(symbols)` as a row mask. */
  function SymbolIn(symbols: seq<string>): Entry -> bool {
    (e: Entry) => e.symbol in symbols
  }

  function DateWithin(start: Date, end: Date): Entry -> bool {
    (e: Entry) => InRange(e.date, start, end)
  }

  /** Both masks of `filter_data` at once. */
  function Selected(symbols: seq<string>, start: Date, end: Date): Entry -> bool {
    (e: Entry) => e.symbol in symbols && InRange(e.date, start, end)
  }

  /** `filter_data`: the symbol mask, then the date mask. */
  function FilterData(data: seq<Entry>, symbols: seq<string>, start: Date, end: Date): (r: seq<Entry>)
    ensures r == Filter(data, Selected(symbols, start, end))
    ensures SubsequenceOf(r, data)
    ensures forall e :: Count(r, e) ==
              if e.symbol in symbols && InRange(e.date, start, end) then Count(data, e) else 0
    ensures forall k :: 0 <= k < |r| ==> r[k].date.Some?
  {
    var bySymbol := Filter(data, SymbolIn(symbols));
    FilterCompose(data, SymbolIn(symbols), DateWithin(start, end), Selected(symbols, start, end));
    FilterIsSubsequence(data, Selected(symbols, start, end));
    Filter(bySymbol, DateWithin(start, end))
  }

  /** `data['Symbols'].unique()`. */
  function SymbolsOf(data: seq<Entry>): (r: seq<string>)
    ensures forall s :: s in r <==> exists e :: e in data && e.symbol == s
  {
    var all := seq(|data|, i requires 0 <= i < |data| => data[i].symbol);
    assert forall e :: e in data ==> e.symbol in all by {
      forall e | e in data ensures e.symbol in all {
        var i :| 0 <= i < |data| && data[i] == e;
        assert all[i] == e.symbol;
      }
    }
    Unique(all)
  }

  /** The selection `prepare_data` shows: the chosen symbols, or every
      symbol in the data when none is chosen, within the date range. */
  function PrepareSelection(data: seq<Entry>, symbolsList: seq<string>, start: Date, end: Date): (r: seq<Entry>)
    ensures SubsequenceOf(r, data)
    ensures forall e :: Count(r, e) ==
              if (|symbolsList| == 0 || e.symbol in symbolsList) && InRange(e.date, start, end)
              then Count(data, e) else 0
  {
    var symbols := if |symbolsList| > 0 then symbolsList else SymbolsOf(data);
    assert |symbolsList| == 0 ==> forall e :: e in data ==> e.symbol in symbols;
    assert forall e :: e !in data ==> Count(data, e) == 0 by {
      forall e | e !in data ensures Count(data, e) == 0 {
        CountAbsent(data, e);
      }
    }
    FilterData(data, symbols, start, end)
  }

  /** With no symbol chosen, only the date range restricts the rows. */
  lemma {:induction false} EmptySelectionFiltersByDateOnly(data: seq<Entry>, start: Date, end: Date)
    ensures PrepareSelection(data, [], start, end) == Filter(data, DateWithin(start, end))
  {
    var symbols := SymbolsOf(data);
    assert forall e :: e in data ==> SymbolIn(symbols)(e);
    FilterAllPass(data, SymbolIn(symbols));
  }

  // ---------------------------------------------------------------------
  // Symbol selection and date inputs

  /** `[s.strip() for s in symbols_input if s.strip()]`. */
  function CleanSymbols(input: seq<string>): (r: seq<string>)
    ensures |r| <= |input|
    ensures forall k :: 0 <= k < |r| ==> r[k] != "" && Strip(r[k]) == r[k]
    ensures forall x :: x in r <==> x != "" && exists s :: s in input && Strip(s) == x
  {
    if |input| == 0 then []
    else
      var t := Strip(input[0]);
      StripIdempotent(input[0]);
      var rest := CleanSymbols(input[1..]);
      assert forall s :: s in input <==> s == input[0] || s in input[1..];
      (if t != "" then [t] else []) + rest
  }

  /** A selection of non-empty, already stripped names is left as is. */
  lemma {:induction false} CleanSymbolsFixed(input: seq<string>)
    requires forall k :: 0 <= k < |input| ==> input[k] != "" && Strip(input[k]) == input[k]
    ensures CleanSymbols(input) == input
    decreases |input|
  {
    if |input| > 0 {
      CleanSymbolsFixed(input[1..]);
      assert [input[0]] + input[1..] == input;
    }
  }

  /** Cleaning an already cleaned selection changes nothing. */
  lemma {:induction false} CleanSymbolsIdempotent(input: seq<string>)
    ensures CleanSymbols(CleanSymbols(input)) == CleanSymbols(input)
  {
    CleanSymbolsFixed(CleanSymbols(input));
  }

  /** A data row whose symbol starts with whitespace is never shown once
      some symbol is chosen: the chosen names are stripped, the data's are not. */
  lemma PaddedSymbolNeverSelected(data: seq<Entry>, input: seq<string>, start: Date, end: Date, e: Entry)
    requires |CleanSymbols(input)| > 0
    requires |e.symbol| > 0 && IsSpace(e.symbol[0])
    ensures e !in PrepareSelection(data, CleanSymbols(input), start, end)
  {
  }

  /** The outcome of the start/end check: the dates used and whether the
      "Start date cannot be after end date" error is shown. */
  datatype DateRange = DateRange(start: Date, end: Date, startAfterEnd: bool)

  function ClampDates(start: Date, end: Date): (r: DateRange)
    ensures r.end == end
    ensures DateLe(r.start, r.end)
    ensures r.startAfterEnd <==> !DateLe(start, end)
    ensures !r.startAfterEnd ==> r.start == start
    ensures r.startAfterEnd ==> r.start == end
  {
    if !DateLe(start, end) then DateRange(end, end, true) else DateRange(start, end, false)
  }

  /** Clamping a clamped range is silent and changes nothing. */
  lemma ClampDatesIdempotent(start: Date, end: Date)
    ensures var r := ClampDates(start, end);
            ClampDates(r.start, r.end) == DateRange(r.start, r.end, false)
  {
  }

  // ---------------------------------------------------------------------
  // Displayed columns and per-column status filters

  /** `selected_views if selected_views else` all four views. */
  function ViewColumnsFor(selectedViews: seq<ViewColumn>): (r: seq<ViewColumn>)
    ensures |r| > 0
    ensures |selectedViews| > 0 ==> r == selectedViews
    ensures |selectedViews| == 0 ==> r == AllViews
    ensures forall c :: c in AllViews ==> (c in r <==> |selectedViews| == 0 || c in selectedViews)
  {
    if |selectedViews| > 0 then selectedViews else AllViews
  }

  /** `['Symbols'] + view_columns + ['date', 'time']`. */
  function DisplayColumns(viewColumns: seq<ViewColumn>): (r: seq<string>)
    ensures |r| == |viewColumns| + 3
    ensures r[0] == "Symbols" && r[|r| - 2] == "date" && r[|r| - 1] == "time"
    ensures forall k :: 0 <= k < |viewColumns| ==> r[k + 1] == viewColumns[k].Name()
  {
    ["Symbols"] + seq(|viewColumns|, k requires 0 <= k < |viewColumns| => viewColumns[k].Name())
      + ["date", "time"]
  }

  const StatusOptions: seq<string> := ["All", "Bullish", "Bearish", "Bullish Sideways", "Bearish Sideways"]

  /** The `filter_conditions` dictionary: a column gets its selection as
      condition exactly when "All" is not among the selected statuses.
      `selection(c)` is the multiselect value for column `c`. */
  function BuildConditions(viewColumns: seq<ViewColumn>, selection: ViewColumn -> seq<string>)
    : (r: map<ViewColumn, seq<string>>)
    ensures forall c :: c in r <==> c in viewColumns && "All" !in selection(c)
    ensures forall c :: c in r ==> r[c] == selection(c)
  {
    if |viewColumns| == 0 then map[]
    else
      var n := |viewColumns| - 1;
      var c := viewColumns[n];
      var prior := BuildConditions(viewColumns[..n], selection);
      assert forall x :: x in viewColumns <==> x in viewColumns[..n] || x == c by {
        assert viewColumns == viewColumns[..n] + [c];
      }
      if "All" !in selection(c) then prior[c := selection(c)] else prior
  }

  /** `col in filter_conditions and filter_conditions[col]`. */
  predicate Constrained(c: ViewColumn, conditions: map<ViewColumn, seq<string>>) {
    c in conditions && |conditions[c]| > 0
  }

  /** A row passes when, in every listed column that carries a non-empty
      condition, its value is one of the allowed ones. */
  predicate PassesAll(e: Entry, viewColumns: seq<ViewColumn>, conditions: map<ViewColumn, seq<string>>) {
    forall c :: c in viewColumns && Constrained(c, conditions) ==> e.views.Get(c) in conditions[c]
  }

  function Passes(viewColumns: seq<ViewColumn>, conditions: map<ViewColumn, seq<string>>): Entry -> bool {
    (e: Entry) => PassesAll(e, viewColumns, conditions)
  }

  /** `filtered_data[col].isin(allowed)` as a row mask. */
  function ValueIn(c: ViewColumn, allowed: seq<string>): Entry -> bool {
    (e: Entry) => e.views.Get(c) in allowed
  }

  /** One iteration of the `apply_filters` loop. */
  function FilterColumn(rows: seq<Entry>, c: ViewColumn, conditions: map<ViewColumn, seq<string>>): seq<Entry> {
    if Constrained(c, conditions) then Filter(rows, ValueIn(c, conditions[c])) else rows
  }

  /** `apply_filters`: the column filters applied one after another. */
  function ApplyFilters(rows: seq<Entry>, viewColumns: seq<ViewColumn>, conditions: map<ViewColumn, seq<string>>)
    : (r: seq<Entry>)
    ensures r == Filter(rows, Passes(viewColumns, conditions))
    decreases |viewColumns|
  {
    if |viewColumns| == 0 then
      FilterAllPass(rows, Passes(viewColumns, conditions));
      rows
    else
      var c := viewColumns[0];
      var rest := viewColumns[1..];
      var once := FilterColumn(rows, c, conditions);
      var r := ApplyFilters(once, rest, conditions);
      assert forall x :: x in viewColumns <==> x == c || x in rest by {
        assert viewColumns == [c] + rest;
      }
      if Constrained(c, conditions) then
        FilterCompose(rows, ValueIn(c, conditions[c]), Passes(rest, conditions), Passes(viewColumns, conditions));
        r
      else
        FilterExtensional(rows, Passes(rest, conditions), Passes(viewColumns, conditions));
        r
  }

  /** `apply_filters` keeps, in order, exactly the rows meeting every
      condition on a listed column. */
  lemma {:induction false} ApplyFiltersSelects(rows: seq<Entry>, viewColumns: seq<ViewColumn>, conditions: map<ViewColumn, seq<string>>)
    ensures SubsequenceOf(ApplyFilters(rows, viewColumns, conditions), rows)
    ensures forall e :: e in ApplyFilters(rows, viewColumns, conditions) <==>
              e in rows && PassesAll(e, viewColumns, conditions)
    ensures forall e :: Count(ApplyFilters(rows, viewColumns, conditions), e) ==
              if PassesAll(e, viewColumns, conditions) then Count(rows, e) else 0
  {
    FilterIsSubsequence(rows, Passes(viewColumns, conditions));
  }

  lemma {:induction false} ApplyFiltersIdempotent(rows: seq<Entry>, viewColumns: seq<ViewColumn>, conditions: map<ViewColumn, seq<string>>)
    ensures var once := ApplyFilters(rows, viewColumns, conditions);
            ApplyFilters(once, viewColumns, conditions) == once
  {
    FilterIdempotent(rows, Passes(viewColumns, conditions));
  }

  /** No listed column with a non-empty condition: every row stays. */
  lemma {:induction false} ApplyFiltersUnconstrained(rows: seq<Entry>, viewColumns: seq<ViewColumn>, conditions: map<ViewColumn, seq<string>>)
    requires forall c :: c in viewColumns ==> !Constrained(c, conditions)
    ensures ApplyFilters(rows, viewColumns, conditions) == rows
  {
    FilterAllPass(rows, Passes(viewColumns, conditions));
  }

  /** Conditions on columns that are not listed play no part. */
  lemma {:induction false} ApplyFiltersIgnoresUnlisted(rows: seq<Entry>, viewColumns: seq<ViewColumn>,
                                    c1: map<ViewColumn, seq<string>>, c2: map<ViewColumn, seq<string>>)
    requires forall c :: c in viewColumns ==> (c in c1 <==> c in c2) && (c in c1 ==> c1[c] == c2[c])
    ensures ApplyFilters(rows, viewColumns, c1) == ApplyFilters(rows, viewColumns, c2)
  {
    FilterExtensional(rows, Passes(viewColumns, c1), Passes(viewColumns, c2));
  }

  /** A column is filtered exactly when its selection lacks "All" and is
      not empty; an empty selection is stored but filters nothing. */
  lemma ConstrainedIffSelected(viewColumns: seq<ViewColumn>, selection: ViewColumn -> seq<string>, c: ViewColumn)
    ensures Constrained(c, BuildConditions(viewColumns, selection)) <==>
              c in viewColumns && "All" !in selection(c) && |selection(c)| > 0
  {
  }

  // ---------------------------------------------------------------------
  // Colour coding

  const Colors: map<string, string> := map[
    "Bullish" := "background-color: #2e8b57; color: white;",
    "Bullish Sideways" := "background-color: #ffeb3b; color: black;",
    "Bearish Sideways" := "background-color: #ff5722; color: white;",
    "Bearish" := "background-color: #d32f2f; color: white;"
  ]

  /** `color_coding`: `colors.get(val, '')`. */
  function ColorCoding(val: string): (r: string)
    ensures r != "" <==> val in {"Bullish", "Bullish Sideways", "Bearish Sideways", "Bearish"}
    ensures val == "Bullish" ==> r == "background-color: #2e8b57; color: white;"
    ensures val == "Bullish Sideways" ==> r == "background-color: #ffeb3b; color: black;"
    ensures val == "Bearish Sideways" ==> r == "background-color: #ff5722; color: white;"
    ensures val == "Bearish" ==> r == "background-color: #d32f2f; color: white;"
  {
    if val in Colors then Colors[val] else ""
  }

  /** Every status a filter can select, other than "All", has its own
      colour; "All" and an empty cell are uncoloured. */
  lemma StatusOptionsColored()
    ensures forall i :: 1 <= i < |StatusOptions| ==> ColorCoding(StatusOptions[i]) != ""
    ensures forall i, j :: 1 <= i < j < |StatusOptions| ==>
              ColorCoding(StatusOptions[i]) != ColorCoding(StatusOptions[j])
    ensures ColorCoding("All") == "" && ColorCoding("") == ""
  {
  }
}

=== FILE: normalizer.dfy ===
/** The row loop of `fetch_all_google_sheets_data`: skip the header line,
    keep the rows that carry a symbol, cut them to the five expected
    columns and stamp them with the date and time of the fetch. */
module Normalizer {
  import opened Wrappers
  import opened Text
  import opened Seqs
  import opened Records

  type Row = seq<string>

  /** `sheet.get_all_values()`: every line of the sheet, as text cells. */
  type Grid = seq<Row>

  const ExpectedHeaders: seq<string> :=
    ["Symbols", "Multi_Months_View", "Multi_Weeks_View", "Weekly_View", "Day_View"]

  /** `len(expected_headers)`. */
  const Width: nat := |ExpectedHeaders|

  /** `cell.strip().upper() == 'SYMBOLS'`: a repeated header line. */
  predicate IsHeaderLabel(cell: string) {
    Upper(Strip(cell)) == "SYMBOLS"
  }

  /** The header test at the level of characters: after stripping, seven
      characters spelling "SYMBOLS" in any mix of cases, where a long s
      (U+017F) also counts as an S. */
  lemma HeaderLabelIff(cell: string)
    ensures IsHeaderLabel(cell) <==>
              var t := Strip(cell);
              |t| == 7 && forall k :: 0 <= k < 7 ==>
                || t[k] == "SYMBOLS"[k]
                || t[k] == "symbols"[k]
                || ((k == 0 || k == 6) && t[k] as int == 0x17F)
  {
  }

  /** The guard of the row loop: enough cells, a non-blank first cell, and
      a first cell that is not the header label again. */
  predicate KeepRow(row: Row) {
    |row| >= Width && Strip(row[0]) != "" && !IsHeaderLabel(row[0])
  }

  /** The padding loop: append "" until `cells` has `width` entries. */
  function PadTo(cells: Row, width: nat): (r: Row)
    ensures |r| == if |cells| >= width then |cells| else width
    ensures r[..|cells|] == cells
    ensures forall k :: |cells| <= k < |r| ==> r[k] == ""
    decreases width - |cells|
  {
    if |cells| >= width then cells else PadTo(cells + [""], width)
  }

  /** Under the loop guard a row already has `Width` cells, so the padding
      loop never appends anything. */
  lemma PaddingNeverRuns(row: Row)
    requires KeepRow(row)
    ensures PadTo(row[..Width], Width) == row[..Width]
  {
  }

  function TextCells(cells: Row): (r: seq<Field>)
    ensures |r| == |cells|
    ensures forall k :: 0 <= k < |cells| ==> r[k] == TextCell(cells[k])
  {
    seq(|cells|, k requires 0 <= k < |cells| => TextCell(cells[k]))
  }

  /** `row[:5]`, padded, then extended with the date and the time. */
  function ToRecord(row: Row, stamp: Stamp): (r: Record)
    requires |row| >= Width
    ensures r.Fields() == TextCells(row[..Width]) + [DateValue(stamp.date), TextCell(stamp.time)]
    ensures r.symbol == row[0]
  {
    var cells := PadTo(row[..Width], Width);
    Record(cells[0], Views(cells[1], cells[2], cells[3], cells[4]), stamp.date, stamp.time)
  }

  /** The rows after the header, normalised in sheet order. */
  function NormalizeBody(rows: Grid, stamp: Stamp): (r: seq<Record>)
    ensures |r| <= |rows|
    ensures forall k :: 0 <= k < |r| ==> r[k].date == stamp.date && r[k].time == stamp.time
  {
    if |rows| == 0 then []
    else (if KeepRow(rows[0]) then [ToRecord(rows[0], stamp)] else []) + NormalizeBody(rows[1..], stamp)
  }

  /** `for row in all_values[1:]`: the first line is dropped whatever it holds. */
  function Normalize(allValues: Grid, stamp: Stamp): (r: seq<Record>)
    ensures |allValues| == 0 ==> r == []
    ensures |allValues| > 0 ==> |r| <= |allValues| - 1
    ensures forall k :: 0 <= k < |r| ==> r[k].date == stamp.date && r[k].time == stamp.time
  {
    if |allValues| == 0 then [] else NormalizeBody(allValues[1..], stamp)
  }

  /** The fetch as a whole: `None` when the sheet could not be read
      (credentials, network, API), otherwise the rows normalised under one
      stamp taken from the clock before the loop. */
  function FetchAll(sheet: Option<Grid>, now: Clock): (r: Option<seq<Record>>)
    requires now.Valid()
    ensures r.None? <==> sheet.None?
    ensures r.Some? ==> forall k :: 0 <= k < |r.value| ==>
              r.value[k].date == now.Today() && r.value[k].time == StampOf(now).time
    ensures sheet.Some? && |sheet.value| > 0 ==>
              r == Some(RecordsAt(sheet.value[1..], KeptIndices(sheet.value[1..]), StampOf(now)))
    ensures sheet == Some([]) ==> r == Some([])
  {
    match sheet
    case None => None
    case Some(g) =>
      if |g| == 0 then Some(Normalize(g, StampOf(now)))
      else
        NormalizeSelects(g[1..], StampOf(now));
        Some(Normalize(g, StampOf(now)))
  }

  /** Positions, among `rows`, of the rows the loop keeps. */
  function KeptIndices(rows: Grid): (r: seq<nat>)
    ensures forall k :: 0 <= k < |r| ==> r[k] < |rows| && KeepRow(rows[r[k]])
    ensures forall a, b :: 0 <= a < b < |r| ==> r[a] < r[b]
    ensures forall i :: 0 <= i < |rows| && KeepRow(rows[i]) ==> i in r
  {
    IndicesWhere(rows, KeepRow)
  }

  lemma {:induction false} NormalizeAppend(a: Grid, b: Grid, stamp: Stamp)
    ensures NormalizeBody(a + b, stamp) == NormalizeBody(a, stamp) + NormalizeBody(b, stamp)
    decreases |a|
  {
    if |a| > 0 {
      assert (a + b)[0] == a[0];
      assert (a + b)[1..] == a[1..] + b;
      NormalizeAppend(a[1..], b, stamp);
      var head := if KeepRow(a[0]) then [ToRecord(a[0], stamp)] else [];
      assert NormalizeBody(a + b, stamp) == head + NormalizeBody(a[1..] + b, stamp);
      assert NormalizeBody(a, stamp) == head + NormalizeBody(a[1..], stamp);
    } else {
      assert a + b == b;
    }
  }

  /** The rows at positions `idx`, converted under `stamp`. */
  function RecordsAt(rows: Grid, idx: seq<nat>, stamp: Stamp): (r: seq<Record>)
    requires forall k :: 0 <= k < |idx| ==> idx[k] < |rows| && |rows[idx[k]]| >= Width
    ensures |r| == |idx|
  {
    seq(|idx|, k requires 0 <= k < |idx| => ToRecord(rows[idx[k]], stamp))
  }

  /** The output is exactly the kept rows, converted, in sheet order: one
      record per kept index and nothing else. */
  lemma {:induction false} NormalizeSelects(rows: Grid, stamp: Stamp)
    ensures NormalizeBody(rows, stamp) == RecordsAt(rows, KeptIndices(rows), stamp)
    decreases |rows|
  {
    if |rows| > 0 {
      var n := |rows| - 1;
      var prior := KeptIndices(rows[..n]);
      NormalizeSelects(rows[..n], stamp);
      assert rows == rows[..n] + [rows[n]];
      NormalizeStep(rows[..n], rows[n], stamp);
      assert KeptIndices(rows) == prior + (if KeepRow(rows[n]) then [n] else []);
      RecordsAtPrefix(rows, n, prior, stamp);
      if KeepRow(rows[n]) {
        RecordsAtSnoc(rows, prior, n, stamp);
      } else {
        assert prior + [] == prior;
      }
    }
  }

  /** Records at positions below `n` only look at the first `n` rows. */
  lemma RecordsAtPrefix(rows: Grid, n: nat, idx: seq<nat>, stamp: Stamp)
    requires n <= |rows|
    requires forall k :: 0 <= k < |idx| ==> idx[k] < n && |rows[idx[k]]| >= Width
    ensures RecordsAt(rows, idx, stamp) == RecordsAt(rows[..n], idx, stamp)
  {
  }

  /** One more position adds that row's record at the end. */
  lemma RecordsAtSnoc(rows: Grid, idx: seq<nat>, j: nat, stamp: Stamp)
    requires forall k :: 0 <= k < |idx| ==> idx[k] < |rows| && |rows[idx[k]]| >= Width
    requires j < |rows| && |rows[j]| >= Width
    ensures RecordsAt(rows, idx + [j], stamp) == RecordsAt(rows, idx, stamp) + [ToRecord(rows[j], stamp)]
  {
  }

  /** Every kept record has a non-blank symbol that is not the header label. */
  lemma {:induction false} KeptSymbolsAreReal(rows: Grid, stamp: Stamp)
    ensures forall k :: 0 <= k < |NormalizeBody(rows, stamp)| ==>
              !IsBlank(NormalizeBody(rows, stamp)[k].symbol) && !IsHeaderLabel(NormalizeBody(rows, stamp)[k].symbol)
  {
    NormalizeSelects(rows, stamp);
  }

  /** A three-line sheet: the first line is taken as the header even though
      it holds data, the blank-symbol line is dropped, one record remains. */
  lemma ThreeLineExample()
    ensures var stamp := Stamp(Date(2024, 6, 1), "09:00:00");
            Normalize([["AAPL", "Bullish", "", "", ""],
                       ["", "x", "x", "x", "x"],
                       ["MSFT", "Bearish", "Bullish", "", "Bearish Sideways"]], stamp)
            == [Record("MSFT", Views("Bearish", "Bullish", "", "Bearish Sideways"), Date(2024, 6, 1), "09:00:00")]
  {
  }

  /** Two sheets that differ only in their first line give the same output. */
  lemma HeaderRowIgnored(g1: Grid, g2: Grid, stamp: Stamp)
    requires |g1| > 0 && |g2| > 0 && g1[1..] == g2[1..]
    ensures Normalize(g1, stamp) == Normalize(g2, stamp)
  {
  }

  /** A row with fewer than `Width` cells contributes nothing: it is
      dropped, not padded. */
  lemma ShortRowDropped(before: Grid, row: Row, after: Grid, stamp: Stamp)
    requires |row| < Width
    ensures NormalizeBody(before + [row] + after, stamp)
         == NormalizeBody(before, stamp) + NormalizeBody(after, stamp)
  {
    NormalizeAppend(before + [row], after, stamp);
    NormalizeAppend(before, [row], stamp);
    assert !KeepRow(row);
    assert NormalizeBody([row], stamp) == [] + NormalizeBody([row][1..], stamp);
    assert [row][1..] == [];
  }

  /** Appending one line adds its record when kept, nothing otherwise. */
  lemma NormalizeStep(prefix: Grid, row: Row, stamp: Stamp)
    ensures NormalizeBody(prefix + [row], stamp)
         == NormalizeBody(prefix, stamp) + (if KeepRow(row) then [ToRecord(row, stamp)] else [])
  {
    NormalizeAppend(prefix, [row], stamp);
    assert [row][1..] == [];
  }

  /** The loop as written: one pass over `all_values[1:]`, appending each
      kept row after padding it. */
  method NormalizeLoop(allValues: Grid, stamp: Stamp) returns (dataRows: seq<Record>)
    ensures dataRows == Normalize(allValues, stamp)
  {
    dataRows := [];
    if |allValues| == 0 {
      return;
    }
    var body := allValues[1..];
    var i := 0;
    while i < |body|
      invariant 0 <= i <= |body|
      invariant dataRows == NormalizeBody(body[..i], stamp)
    {
      var row := body[i];
      if KeepRow(row) {
        var rowData := PadTo(row[..Width], Width);
        dataRows := dataRows + [Record(rowData[0], Views(rowData[1], rowData[2], rowData[3], rowData[4]),
                                       stamp.date, stamp.time)];
        assert dataRows == NormalizeBody(body[..i], stamp) + [ToRecord(row, stamp)];
      }
      assert body[..i + 1] == body[..i] + [row];
      NormalizeStep(body[..i], row, stamp);
      i := i + 1;
    }
    assert body[..i] == body;
  }
}

=== FILE: records.dfy ===
/** The data shared by the ingestion script and the dashboard: calendar
    dates, the wall clock reading, the four trend-view columns, an ingested
    row and a dashboard row. */
module Records {
  import opened Wrappers
  import opened Text

  /** A calendar date (`datetime.date`). */
  datatype Date = Date(year: int, month: int, day: int)

  /** Chronological order of dates, as Python and pandas compare them. */
  predicate DateLe(a: Date, b: Date) {
    a.year < b.year
    || (a.year == b.year && a.month < b.month)
    || (a.year == b.year && a.month == b.month && a.day <= b.day)
  }

  predicate IsLeapYear(y: int) {
    (y % 4 == 0 && y % 100 != 0) || y % 400 == 0
  }

  function DaysInMonth(year: int, month: int): int
    requires 1 <= month <= 12
  {
    if month == 2 then (if IsLeapYear(year) then 29 else 28)
    else if month == 4 || month == 6 || month == 9 || month == 11 then 30
    else 31
  }

  /** A reading of `datetime.now()`, to the second. */
  datatype Clock = Clock(year: int, month: int, day: int, hour: int, minute: int, second: int) {
    /** The ranges `datetime` guarantees for its fields. */
    predicate Valid() {
      && 1 <= year <= 9999
      && 1 <= month <= 12
      && 1 <= day <= DaysInMonth(year, month)
      && 0 <= hour < 24
      && 0 <= minute < 60
      && 0 <= second < 60
    }

    function Today(): Date {
      Date(year, month, day)
    }
  }

  /** The four trend columns, in sheet order after `Symbols`. */
  datatype ViewColumn = MultiMonthsView | MultiWeeksView | WeeklyView | DayView {
    /** The column header used in the sheet, the CSV and the table. */
    function Name(): string {
      match this
      case MultiMonthsView => "Multi_Months_View"
      case MultiWeeksView => "Multi_Weeks_View"
      case WeeklyView => "Weekly_View"
      case DayView => "Day_View"
    }
  }

  /** `['Multi_Months_View', 'Multi_Weeks_View', 'Weekly_View', 'Day_View']`. */
  const AllViews: seq<ViewColumn> := [MultiMonthsView, MultiWeeksView, WeeklyView, DayView]

  /** The four trend cells of one row. Values are free text: nothing checks
      them against Bullish/Bearish/...; a missing CSV cell is "". */
  datatype Views = Views(multiMonths: string, multiWeeks: string, weekly: string, day: string) {
    function Get(c: ViewColumn): string {
      match c
      case MultiMonthsView => multiMonths
      case MultiWeeksView => multiWeeks
      case WeeklyView => weekly
      case DayView => day
    }
  }

  /** One cell of an ingested row as handed to pandas and MySQL: the
      ingestion date is a `date` object, every other cell a string. */
  datatype Field = TextCell(text: string) | DateValue(date: Date)

  /** The ingestion stamp taken once per fetch: `date` and `HH:MM:SS`. */
  datatype Stamp = Stamp(date: Date, time: string)

  /** One normalised sheet row: `Symbols`, the four views, `date`, `time`. */
  datatype Record = Record(symbol: string, views: Views, date: Date, time: string) {
    /** The row as the 7-element list the script builds. */
    function Fields(): seq<Field> {
      [TextCell(symbol), TextCell(views.multiMonths), TextCell(views.multiWeeks),
       TextCell(views.weekly), TextCell(views.day), DateValue(date), TextCell(time)]
    }
  }

  /** One row of the dashboard's data frame. `date` is `None` where
      `to_datetime(..., errors='coerce')` produced NaT. */
  datatype Entry = Entry(symbol: string, views: Views, date: Option<Date>, time: string)

  /** `strftime('%H:%M:%S')`. */
  function TimeOfDay(c: Clock): (r: string)
    requires c.Valid()
    ensures |r| == 8 && r[2] == ':' && r[5] == ':'
    ensures ParseTwoDigits(r[0..2]) == Some(c.hour)
    ensures ParseTwoDigits(r[3..5]) == Some(c.minute)
    ensures ParseTwoDigits(r[6..8]) == Some(c.second)
  {
    var r := TwoDigits(c.hour) + ":" + TwoDigits(c.minute) + ":" + TwoDigits(c.second);
    assert r[0..2] == TwoDigits(c.hour);
    assert r[3..5] == TwoDigits(c.minute);
    assert r[6..8] == TwoDigits(c.second);
    r
  }

  /** The stamp the fetch takes from one clock reading. */
  function StampOf(c: Clock): (s: Stamp)
    requires c.Valid()
    ensures s.date == c.Today()
    ensures |s.time| == 8 && s.time[2] == ':' && s.time[5] == ':'
    ensures ParseTwoDigits(s.time[0..2]) == Some(c.hour)
    ensures ParseTwoDigits(s.time[3..5]) == Some(c.minute)
    ensures ParseTwoDigits(s.time[6..8]) == Some(c.second)
  {
    Stamp(c.Today(), TimeOfDay(c))
  }
}

=== FILE: scheduler.dfy ===
/** `schedule_data_fetching`, run by `main`: each hour, fetch the sheet;
    when rows came back, attempt the CSV backup and then the MySQL insert;
    otherwise log that nothing was fetched. A cycle is modelled by the
    sequence of sink attempts and log lines it produces. The outcome of each
    sink is a parameter, except that `insert_to_mysql` is modelled step by
    step, because some of its failures raise instead of returning False. */
module Scheduler {
  import opened Wrappers
  import opened Seqs
  import opened Records
  import opened Normalizer
  import opened Backup

  // ---------------------------------------------------------------------
  // insert_to_mysql

  /** How one step of the insert can end: normally, with a
      `mysql.connector.Error`, or with any other exception. */
  datatype Step = Ok | MySqlError | OtherError

  /** What the database does during one call of `insert_to_mysql`:
      whether a connection is obtained, how `connection.cursor()` and
      `executemany` + `commit` end, whether `connection.rollback()` raises,
      and whether the connection still reports itself connected in the
      `finally` block. */
  datatype InsertRun = InsertRun(connects: bool, cursor: Step, execute: Step,
                                 rollbackRaises: bool, connectedAtEnd: bool)

  /** The call returns True, returns False, or raises to its caller. */
  datatype InsertOutcome = Inserted | NotInserted | Raised

  /** `insert_to_mysql` as written. Only `Error` is caught. When
      `cursor()` fails with an `Error`, the handler returns False but the
      `finally` block then calls `close()` on the never-assigned `cursor`
      and raises `UnboundLocalError` if the connection is still up. */
  function InsertToMysql(run: InsertRun): (r: InsertOutcome)
    ensures r == Inserted <==> run.connects && run.cursor == Ok && run.execute == Ok
    ensures r == Raised <==>
              && run.connects
              && (|| run.cursor == OtherError
                  || (run.cursor == MySqlError && (run.rollbackRaises || run.connectedAtEnd))
                  || (run.cursor == Ok && run.execute == OtherError)
                  || (run.cursor == Ok && run.execute == MySqlError && run.rollbackRaises))
  {
    if !run.connects then NotInserted
    else match run.cursor
      case OtherError => Raised
      case MySqlError =>
        if run.rollbackRaises then Raised
        else if run.connectedAtEnd then Raised
        else NotInserted
      case Ok =>
        match run.execute
        case Ok => Inserted
        case OtherError => Raised
        case MySqlError => if run.rollbackRaises then Raised else NotInserted
  }

  /** The insert as evidently intended: report every failure as False. */
  function SafeInsert(run: InsertRun): (r: InsertOutcome)
    ensures r != Raised
    ensures r == Inserted <==> InsertToMysql(run) == Inserted
  {
    if run.connects && run.cursor == Ok && run.execute == Ok then Inserted else NotInserted
  }

  // ---------------------------------------------------------------------
  // One cycle

  /** The lines `schedule_data_fetching` and `main` print themselves. */
  datatype Message =
    | BackupCompleted(file: string)
    | InsertSucceeded
    | InsertFailed
    | NoDataFetched
    | WaitingForNextHour
    | UnexpectedErrorInMain

  datatype Event = BackupAttempted | InsertAttempted | Logged(message: Message)

  /** `df is not None and not df.empty`. */
  predicate HasData(fetched: Option<seq<Record>>) {
    fetched.Some? && |fetched.value| > 0
  }

  /** The cycle is cut short by an exception from the insert. */
  predicate Raises(fetched: Option<seq<Record>>, insert: InsertOutcome) {
    HasData(fetched) && insert == Raised
  }

  /** The backup report: printed only for a non-empty returned name. */
  function BackupReport(backupFile: Option<string>): (r: seq<Event>)
    ensures forall f :: Logged(BackupCompleted(f)) in r <==> backupFile == Some(f) && f != ""
    ensures forall e :: e in r ==> e.Logged? && e.message.BackupCompleted?
  {
    if backupFile.Some? && backupFile.value != "" then [Logged(BackupCompleted(backupFile.value))] else []
  }

  /** What follows the insert attempt: the insert report and the wait, or
      nothing when the insert raised. */
  function AfterInsert(insert: InsertOutcome): (r: seq<Event>)
    ensures forall e :: e in r ==> e.Logged? && !e.message.BackupCompleted? && e.message != NoDataFetched
    ensures Logged(InsertSucceeded) in r <==> insert == Inserted
    ensures Logged(InsertFailed) in r <==> insert == NotInserted
    ensures Count(r, Logged(WaitingForNextHour)) == if insert == Raised then 0 else 1
    ensures insert != Raised ==> |r| > 0 && r[|r| - 1] == Logged(WaitingForNextHour)
    ensures insert == Raised ==> r == []
  {
    if insert == Raised then []
    else
      var r := [Logged(if insert == Inserted then InsertSucceeded else InsertFailed), Logged(WaitingForNextHour)];
      assert r[1..][1..] == [];
      assert Count(r[1..], Logged(WaitingForNextHour)) == 1;
      r
  }

  /** The branch taken when rows were fetched: backup, insert, then the
      insert report and the wait unless the insert raised. */
  function DataCycle(backupFile: Option<string>, insert: InsertOutcome): (trace: seq<Event>)
    ensures Count(trace, BackupAttempted) == 1 && Count(trace, InsertAttempted) == 1
    ensures Logged(NoDataFetched) !in trace
    ensures Logged(InsertSucceeded) in trace <==> insert == Inserted
    ensures Logged(InsertFailed) in trace <==> insert == NotInserted
    ensures forall f :: Logged(BackupCompleted(f)) in trace <==> backupFile == Some(f) && f != ""
    ensures trace[0] == BackupAttempted
    ensures insert == Raised ==> trace[|trace| - 1] == InsertAttempted
    ensures Count(trace, Logged(WaitingForNextHour)) == if insert == Raised then 0 else 1
    ensures insert != Raised ==> trace[|trace| - 1] == Logged(WaitingForNextHour)
  {
    var head := Attempts(BackupReport(backupFile));
    var after := AfterInsert(insert);
    assert (head + after)[0] == BackupAttempted;
    assert after != [] ==> (head + after)[|head + after| - 1] == after[|after| - 1];
    assert after == [] ==> head + after == head;
    CountAppend(head, after, BackupAttempted);
    CountAppend(head, after, InsertAttempted);
    CountAppend(head, after, Logged(WaitingForNextHour));
    CountAbsent(after, BackupAttempted);
    CountAbsent(after, InsertAttempted);
    head + after
  }

  /** The order of a cycle with data: the backup attempt, its report, the
      insert attempt, then the insert report and the wait unless the insert
      raised; `main`'s error line is not part of it. */
  lemma DataCycleShape(backupFile: Option<string>, insert: InsertOutcome)
    ensures var trace := DataCycle(backupFile, insert);
            && |trace| == 2 + |BackupReport(backupFile)| + (if insert == Raised then 0 else 2)
            && trace[..|BackupReport(backupFile)| + 2] == [BackupAttempted] + BackupReport(backupFile) + [InsertAttempted]
            && (insert != Raised ==>
                  trace[|trace| - 2] == Logged(if insert == Inserted then InsertSucceeded else InsertFailed))
            && Logged(UnexpectedErrorInMain) !in trace
  {
    var head := Attempts(BackupReport(backupFile));
    var after := AfterInsert(insert);
    assert DataCycle(backupFile, insert) == head + after;
    assert (head + after)[..|head|] == head;
  }

  /** The backup attempt, its report, and the insert attempt. */
  function Attempts(report: seq<Event>): (r: seq<Event>)
    requires forall e :: e in report ==> e.Logged? && e.message.BackupCompleted?
    ensures forall e :: e in r <==> e == BackupAttempted || e == InsertAttempted || e in report
    ensures Count(r, BackupAttempted) == 1 && Count(r, InsertAttempted) == 1
    ensures Count(r, Logged(WaitingForNextHour)) == 0
    ensures r[0] == BackupAttempted && r[|r| - 1] == InsertAttempted
  {
    var r := [BackupAttempted] + report + [InsertAttempted];
    assert r[0] == BackupAttempted;
    CountAppend([BackupAttempted] + report, [InsertAttempted], BackupAttempted);
    CountAppend([BackupAttempted] + report, [InsertAttempted], InsertAttempted);
    CountAppend([BackupAttempted], report, BackupAttempted);
    CountAppend([BackupAttempted], report, InsertAttempted);
    CountAbsent(report, BackupAttempted);
    CountAbsent(report, InsertAttempted);
    CountAbsent(r, Logged(WaitingForNextHour));
    r
  }

  /** The branch taken when nothing was fetched. */
  function NoDataCycle(): (trace: seq<Event>)
    ensures Count(trace, BackupAttempted) == 0 && Count(trace, InsertAttempted) == 0
    ensures Logged(NoDataFetched) in trace
    ensures forall e :: e in trace ==> e.Logged? && !e.message.BackupCompleted?
    ensures forall e :: e in trace ==> e != Logged(InsertSucceeded) && e != Logged(InsertFailed)
    ensures Count(trace, Logged(WaitingForNextHour)) == 1
    ensures trace[|trace| - 1] == Logged(WaitingForNextHour)
    ensures |trace| == 2 && Logged(UnexpectedErrorInMain) !in trace
  {
    var trace := [Logged(NoDataFetched), Logged(WaitingForNextHour)];
    assert trace[1..][1..] == [];
    CountAbsent(trace, BackupAttempted);
    CountAbsent(trace, InsertAttempted);
    trace
  }

  /** One pass of the `while True` body. `backupFile` is what
      `backup_to_csv` returned (`None` on failure) and `insert` how
      `insert_to_mysql` ended; both are ignored when no sink is attempted.
      When the insert raises, nothing after it in the body runs. */
  function Cycle(fetched: Option<seq<Record>>, backupFile: Option<string>, insert: InsertOutcome)
    : (trace: seq<Event>)
    ensures Count(trace, BackupAttempted) == if HasData(fetched) then 1 else 0
    ensures Count(trace, InsertAttempted) == if HasData(fetched) then 1 else 0
    ensures Logged(NoDataFetched) in trace <==> !HasData(fetched)
    ensures Logged(InsertSucceeded) in trace <==> HasData(fetched) && insert == Inserted
    ensures Logged(InsertFailed) in trace <==> HasData(fetched) && insert == NotInserted
    ensures forall f :: Logged(BackupCompleted(f)) in trace <==>
              HasData(fetched) && backupFile == Some(f) && f != ""
    ensures HasData(fetched) ==> trace[0] == BackupAttempted
    ensures Raises(fetched, insert) ==> trace[|trace| - 1] == InsertAttempted
    ensures Count(trace, Logged(WaitingForNextHour)) == if Raises(fetched, insert) then 0 else 1
    ensures !Raises(fetched, insert) ==> trace[|trace| - 1] == Logged(WaitingForNextHour)
    ensures Logged(UnexpectedErrorInMain) !in trace
    ensures HasData(fetched) ==>
              trace[..|BackupReport(backupFile)| + 2] == [BackupAttempted] + BackupReport(backupFile) + [InsertAttempted]
    ensures HasData(fetched) && insert != Raised ==>
              trace[|trace| - 2] == Logged(if insert == Inserted then InsertSucceeded else InsertFailed)
    ensures |trace| == if !HasData(fetched) then 2
                       else 2 + |BackupReport(backupFile)| + (if insert == Raised then 0 else 2)
  {
    if HasData(fetched) then
      DataCycleShape(backupFile, insert);
      DataCycle(backupFile, insert)
    else NoDataCycle()
  }

  /** A full cycle from the sheet read onwards: the fetch stamps rows with
      `fetchClock`, and a successful backup reports the name derived from
      `backupClock` (the two `datetime.now()` calls are separate). */
  function RunCycle(sheet: Option<Grid>, fetchClock: Clock, backupWritten: bool, backupClock: Clock,
                    insert: InsertRun): (trace: seq<Event>)
    requires fetchClock.Valid() && backupClock.Valid()
    ensures Count(trace, BackupAttempted) == Count(trace, InsertAttempted)
    ensures BackupAttempted in trace <==> sheet.Some? && |Normalize(sheet.value, StampOf(fetchClock))| > 0
    ensures Logged(BackupCompleted(BackupName(backupClock))) in trace <==>
              backupWritten && BackupAttempted in trace
  {
    Cycle(FetchAll(sheet, fetchClock), if backupWritten then Some(BackupName(backupClock)) else None,
          InsertToMysql(insert))
  }

  /** A sheet holding nothing but its header line leads to no backup and no
      insert, only the "no data" line. */
  lemma HeaderOnlySheetFetchesNothing(header: Row, fetchClock: Clock, backupWritten: bool,
                                       backupClock: Clock, insert: InsertRun)
    requires fetchClock.Valid() && backupClock.Valid()
    ensures var t := RunCycle(Some([header]), fetchClock, backupWritten, backupClock, insert);
            BackupAttempted !in t && InsertAttempted !in t && Logged(NoDataFetched) in t
  {
  }

  // ---------------------------------------------------------------------
  // The loop

  datatype CycleInput = CycleInput(fetched: Option<seq<Record>>, backupFile: Option<string>, insert: InsertRun)

  /** Cycles that run to the wait before the first one whose insert raises. */
  function CompletedCycles(cycles: seq<CycleInput>, insert: InsertRun -> InsertOutcome): nat {
    if |cycles| == 0 then 0
    else if Raises(cycles[0].fetched, insert(cycles[0].insert)) then 0
    else 1 + CompletedCycles(cycles[1..], insert)
  }

  /** `main` running the `while True` loop over a finite prefix of its
      cycles, with `insert` deciding how each insert ends. An exception out
      of a cycle leaves the loop; `main` logs it and the program ends. */
  function ScheduleWith(cycles: seq<CycleInput>, insert: InsertRun -> InsertOutcome): (trace: seq<Event>)
    ensures Count(trace, Logged(WaitingForNextHour)) == CompletedCycles(cycles, insert)
    ensures Count(trace, Logged(UnexpectedErrorInMain)) == if CompletedCycles(cycles, insert) < |cycles| then 1 else 0
  {
    if |cycles| == 0 then []
    else
      var c := cycles[0];
      var t := Cycle(c.fetched, c.backupFile, insert(c.insert));
      var rest := if Raises(c.fetched, insert(c.insert)) then [Logged(UnexpectedErrorInMain)]
                  else ScheduleWith(cycles[1..], insert);
      CountAbsent(t, Logged(UnexpectedErrorInMain));
      assert Count([Logged(UnexpectedErrorInMain)][1..], Logged(WaitingForNextHour)) == 0;
      CountAppend(t, rest, Logged(WaitingForNextHour));
      CountAppend(t, rest, Logged(UnexpectedErrorInMain));
      t + rest
  }

  /** The program as written. */
  function Schedule(cycles: seq<CycleInput>): (trace: seq<Event>)
    ensures Count(trace, Logged(WaitingForNextHour)) == CompletedCycles(cycles, InsertToMysql)
  {
    ScheduleWith(cycles, InsertToMysql)
  }

  /** The program with every insert failure reported as False. */
  function SafeSchedule(cycles: seq<CycleInput>): (trace: seq<Event>)
    ensures Count(trace, Logged(WaitingForNextHour)) == CompletedCycles(cycles, SafeInsert)
  {
    ScheduleWith(cycles, SafeInsert)
  }

  /** Every cycle completes exactly when no insert raises. */
  lemma {:induction false} CompletedCyclesAll(cycles: seq<CycleInput>, insert: InsertRun -> InsertOutcome)
    ensures CompletedCycles(cycles, insert) <= |cycles|
    ensures CompletedCycles(cycles, insert) == |cycles| <==>
              forall k :: 0 <= k < |cycles| ==> !Raises(cycles[k].fetched, insert(cycles[k].insert))
    decreases |cycles|
  {
    if |cycles| > 0 {
      CompletedCyclesAll(cycles[1..], insert);
      assert forall k :: 1 <= k < |cycles| ==> cycles[1..][k - 1] == cycles[k];
    }
  }

  /** As long as no insert raises, the loop reaches the hourly wait once per
      cycle, whatever else failed: an unreadable or empty sheet, a failed
      backup, or an insert that returned False. */
  lemma ScheduleWaitsOncePerCycle(cycles: seq<CycleInput>)
    ensures (forall k :: 0 <= k < |cycles| ==> !Raises(cycles[k].fetched, InsertToMysql(cycles[k].insert)))
            ==> Count(Schedule(cycles), Logged(WaitingForNextHour)) == |cycles|
  {
    CompletedCyclesAll(cycles, InsertToMysql);
  }

  /** The insert run in which `connection.cursor()` fails with a MySQL
      error while the connection stays up. */
  const CursorFault: InsertRun := InsertRun(true, MySqlError, Ok, false, true)

  /** As written, that run makes `insert_to_mysql` raise, and the first
      cycle with data in which it happens ends the program: no later cycle
      runs and the hourly wait is never reached. */
  lemma CursorFaultEndsLoop(rec: Record, backupFile: Option<string>, later: seq<CycleInput>)
    ensures InsertToMysql(CursorFault) == Raised
    ensures var trace := Schedule([CycleInput(Some([rec]), backupFile, CursorFault)] + later);
            && Count(trace, Logged(WaitingForNextHour)) == 0
            && Count(trace, InsertAttempted) == 1
            && trace[|trace| - 1] == Logged(UnexpectedErrorInMain)
  {
    var cycles := [CycleInput(Some([rec]), backupFile, CursorFault)] + later;
    assert cycles[0] == CycleInput(Some([rec]), backupFile, CursorFault);
    var t := Cycle(Some([rec]), backupFile, Raised);
    CountAppend(t, [Logged(UnexpectedErrorInMain)], InsertAttempted);
  }

  /** With every failure reported as False, the loop reaches the hourly
      wait once per cycle for every sequence of cycles. */
  lemma SafeScheduleWaitsOncePerCycle(cycles: seq<CycleInput>)
    ensures Count(SafeSchedule(cycles), Logged(WaitingForNextHour)) == |cycles|
  {
    CompletedCyclesAll(cycles, SafeInsert);
  }
}

=== FILE: seqs.dfy ===
/** Sequence operations shared by the pandas-style row filters: boolean-mask
    selection (`df[mask]`), order-preserving subsequences, `unique()` and
    counting. */
module Seqs {

  /** `df[mask]`: the elements satisfying `p`, in their original order. */
  function Filter<T(==,!new)>(s: seq<T>, p: T -> bool): (r: seq<T>)
    ensures |r| <= |s|
    ensures forall x :: x in r <==> x in s && p(x)
    ensures forall x {:trigger Count(r, x)} :: Count(r, x) == if p(x) then Count(s, x) else 0
  {
    if |s| == 0 then []
    else
      var head := if p(s[0]) then [s[0]] else [];
      var rest := Filter(s[1..], p);
      assert forall x :: Count(head + rest, x) == Count(head, x) + Count(rest, x) by {
        forall x ensures Count(head + rest, x) == Count(head, x) + Count(rest, x) {
          CountAppend(head, rest, x);
        }
      }
      head + rest
  }

  /** `a` can be obtained from `b` by deleting elements, keeping order. */
  predicate SubsequenceOf<T(==)>(a: seq<T>, b: seq<T>)
    decreases |b|
  {
    if |a| == 0 then true
    else if |b| == 0 then false
    else (a[0] == b[0] && SubsequenceOf(a[1..], b[1..])) || SubsequenceOf(a, b[1..])
  }

  lemma {:induction false} FilterIsSubsequence<T(!new)>(s: seq<T>, p: T -> bool)
    ensures SubsequenceOf(Filter(s, p), s)
    decreases |s|
  {
    if |s| > 0 {
      FilterIsSubsequence(s[1..], p);
      var rest := Filter(s[1..], p);
      if p(s[0]) {
        assert Filter(s, p) == [s[0]] + rest;
        assert ([s[0]] + rest)[1..] == rest;
      } else {
        assert Filter(s, p) == rest;
        if |rest| > 0 {
          assert SubsequenceOf(rest, s[1..]);
        }
      }
    }
  }

  /** Selection keeps everything when every element passes. */
  lemma {:induction false} FilterAllPass<T(!new)>(s: seq<T>, p: T -> bool)
    requires forall x :: x in s ==> p(x)
    ensures Filter(s, p) == s
    decreases |s|
  {
    if |s| > 0 {
      assert s[0] in s;
      assert forall x :: x in s[1..] ==> x in s;
      FilterAllPass(s[1..], p);
      assert [s[0]] + s[1..] == s;
    }
  }

  /** Two successive selections are one selection by the conjunction. */
  lemma {:induction false} FilterCompose<T(!new)>(s: seq<T>, p: T -> bool, q: T -> bool, both: T -> bool)
    requires forall x :: both(x) == (p(x) && q(x))
    ensures Filter(Filter(s, p), q) == Filter(s, both)
    decreases |s|
  {
    if |s| > 0 {
      FilterCompose(s[1..], p, q, both);
      FilterAppend((if p(s[0]) then [s[0]] else []), Filter(s[1..], p), q);
    }
  }

  lemma {:induction false} FilterAppend<T(!new)>(a: seq<T>, b: seq<T>, p: T -> bool)
    ensures Filter(a + b, p) == Filter(a, p) + Filter(b, p)
    decreases |a|
  {
    if |a| > 0 {
      assert (a + b)[0] == a[0];
      assert (a + b)[1..] == a[1..] + b;
      FilterAppend(a[1..], b, p);
    } else {
      assert a + b == b;
    }
  }

  /** Selection depends only on which elements pass. */
  lemma {:induction false} FilterExtensional<T(!new)>(s: seq<T>, p: T -> bool, q: T -> bool)
    requires forall x :: x in s ==> p(x) == q(x)
    ensures Filter(s, p) == Filter(s, q)
    decreases |s|
  {
    if |s| > 0 {
      assert s[0] in s;
      assert forall x :: x in s[1..] ==> x in s;
      FilterExtensional(s[1..], p, q);
    }
  }

  lemma {:induction false} FilterIdempotent<T(!new)>(s: seq<T>, p: T -> bool)
    ensures Filter(Filter(s, p), p) == Filter(s, p)
  {
    FilterAllPass(Filter(s, p), p);
  }

  /** Positions of the elements satisfying `p`, in increasing order. */
  function IndicesWhere<T>(s: seq<T>, p: T -> bool): (r: seq<nat>)
    ensures forall k :: 0 <= k < |r| ==> r[k] < |s| && p(s[r[k]])
    ensures forall a, b :: 0 <= a < b < |r| ==> r[a] < r[b]
    ensures forall i :: 0 <= i < |s| && p(s[i]) ==> i in r
  {
    if |s| == 0 then []
    else
      var n := |s| - 1;
      var prior := IndicesWhere(s[..n], p);
      assert forall i :: 0 <= i < n ==> s[..n][i] == s[i];
      prior + (if p(s[n]) then [n] else [])
  }

  /** `Series.unique()`: each distinct value once, in order of first appearance. */
  function Unique<T(==,!new)>(s: seq<T>): (r: seq<T>)
    ensures forall x :: x in r <==> x in s
    ensures forall i, j :: 0 <= i < j < |r| ==> r[i] != r[j]
  {
    if |s| == 0 then []
    else
      var u := Unique(s[..|s| - 1]);
      assert s == s[..|s| - 1] + [s[|s| - 1]];
      if s[|s| - 1] in u then u else u + [s[|s| - 1]]
  }

  /** Number of occurrences of `x` in `s`. */
  function Count<T(==)>(s: seq<T>, x: T): nat {
    if |s| == 0 then 0 else (if s[0] == x then 1 else 0) + Count(s[1..], x)
  }

  /** An element that does not occur is counted zero times. */
  lemma {:induction false} CountAbsent<T>(s: seq<T>, x: T)
    requires x !in s
    ensures Count(s, x) == 0
    decreases |s|
  {
    if |s| > 0 {
      assert forall y :: y in s[1..] ==> y in s;
      CountAbsent(s[1..], x);
    }
  }

  lemma {:induction false} CountAppend<T>(a: seq<T>, b: seq<T>, x: T)
    ensures Count(a + b, x) == Count(a, x) + Count(b, x)
    decreases |a|
  {
    if |a| > 0 {
      assert (a + b)[0] == a[0];
      assert (a + b)[1..] == a[1..] + b;
      CountAppend(a[1..], b, x);
    } else {
      assert a + b == b;
    }
  }
}

=== FILE: text.dfy ===
/** Character-level helpers the Python code gets from `str`: `strip()`,
    `upper()`, and two-digit zero-padded number formatting (`%02d`-style
    fields of `strftime`). */
module Text {
  import opened Wrappers

  /** Python's `str.isspace()` for one character: the ASCII controls
      TAB..CR, the separators 0x1C..0x1F, SPACE, and the Unicode
      space separators Python treats as whitespace. */
  predicate IsSpace(c: char) {
    var n := c as int;
    || n == 0x20
    || 0x09 <= n <= 0x0D
    || 0x1C <= n <= 0x1F
    || n == 0x85
    || n == 0xA0
    || n == 0x1680
    || 0x2000 <= n <= 0x200A
    || n == 0x2028
    || n == 0x2029
    || n == 0x202F
    || n == 0x205F
    || n == 0x3000
  }

  /** A string is blank when every character is whitespace (so `""` is blank). */
  predicate IsBlank(s: string) {
    forall k :: 0 <= k < |s| ==> IsSpace(s[k])
  }

  /** Number of whitespace characters at the start of `s`. */
  function LeadingSpaces(s: string): (n: nat)
    ensures n <= |s|
    ensures forall k :: 0 <= k < n ==> IsSpace(s[k])
    ensures n < |s| ==> !IsSpace(s[n])
  {
    if |s| > 0 && IsSpace(s[0]) then 1 + LeadingSpaces(s[1..]) else 0
  }

  /** Length of `s` once its trailing whitespace is removed. */
  function TrimmedEnd(s: string): (n: nat)
    ensures n <= |s|
    ensures forall k :: n <= k < |s| ==> IsSpace(s[k])
    ensures n > 0 ==> !IsSpace(s[n - 1])
  {
    if |s| > 0 && IsSpace(s[|s| - 1]) then TrimmedEnd(s[..|s| - 1]) else |s|
  }

  /** Python's `s.strip()`: remove leading and trailing whitespace. */
  function Strip(s: string): (r: string)
    ensures |r| <= |s|
    ensures LeadingSpaces(s) + |r| <= |s|
    ensures r == s[LeadingSpaces(s)..LeadingSpaces(s) + |r|]
    ensures IsBlank(s[..LeadingSpaces(s)]) && IsBlank(s[LeadingSpaces(s) + |r|..])
    ensures r == [] <==> IsBlank(s)
    ensures r != [] ==> !IsSpace(r[0]) && !IsSpace(r[|r| - 1])
  {
    var t := s[LeadingSpaces(s)..];
    t[..TrimmedEnd(t)]
  }

  /** Stripping twice is stripping once. */
  lemma StripIdempotent(s: string)
    ensures Strip(Strip(s)) == Strip(s)
  {
  }

  /** Python's `str.upper()` on the characters that can matter when the
      result is compared with an ASCII upper-case word: ASCII letters, and
      U+017F (long s) and U+0131 (dotless i), whose upper case is the ASCII
      letter S and I. No other character's upper case can make a string
      equal to "SYMBOLS", the one word this model compares with, so every
      other character is kept as is. */
  function UpperChar(c: char): char {
    if 'a' <= c <= 'z' then (c as int - 32) as char
    else if c as int == 0x17F then 'S'
    else if c as int == 0x131 then 'I'
    else c
  }

  function Upper(s: string): (r: string)
    ensures |r| == |s|
    ensures forall k :: 0 <= k < |s| ==> r[k] == UpperChar(s[k])
  {
    seq(|s|, k requires 0 <= k < |s| => UpperChar(s[k]))
  }

  /** Which strings `upper()` turns into "SYMBOLS": exactly seven
      characters, each the upper- or lower-case letter of "SYMBOLS" at that
      position, or a long s (U+017F) where "SYMBOLS" has an S. */
  lemma UpperIsSymbols(s: string)
    ensures Upper(s) == "SYMBOLS" <==>
              |s| == 7 && forall k :: 0 <= k < 7 ==>
                || s[k] == "SYMBOLS"[k]
                || s[k] == "symbols"[k]
                || ((k == 0 || k == 6) && s[k] as int == 0x17F)
  {
  }

  predicate IsDigit(c: char) {
    '0' <= c <= '9'
  }

  function DigitValue(c: char): int
    requires IsDigit(c)
  {
    c as int - '0' as int
  }

  function Digit(d: int): (c: char)
    requires 0 <= d < 10
    ensures IsDigit(c) && DigitValue(c) == d
  {
    ('0' as int + d) as char
  }

  /** `n` written with exactly two digits, zero-padded (`%d`, `%m`, `%y`,
      `%H`, `%M`, `%S` of `strftime`). */
  function TwoDigits(n: int): (r: string)
    requires 0 <= n < 100
    ensures |r| == 2 && IsDigit(r[0]) && IsDigit(r[1])
    ensures 10 * DigitValue(r[0]) + DigitValue(r[1]) == n
  {
    [Digit(n / 10), Digit(n % 10)]
  }

  /** Reads back a two-digit field; `None` for anything else. */
  function ParseTwoDigits(s: string): (r: Option<int>)
    ensures r.Some? ==> 0 <= r.value < 100 && TwoDigits(r.value) == s
  {
    if |s| == 2 && IsDigit(s[0]) && IsDigit(s[1])
    then Some(10 * DigitValue(s[0]) + DigitValue(s[1]))
    else None
  }
}

=== FILE: wrappers.dfy ===
/** The optional value used wherever the Python code returns `None` or
    pandas produces a missing value. */
module Wrappers {

  datatype Option<+T> = None | Some(value: T)
}
